=== FILE: README.md ===
# Money-flow earnings timer, modelled in Dafny

This project models the earnings timer of the money-flow page. The timer is `TimerManager`, in
`src/utils/money-flow/timer.js`. Its configuration tables are `AppConfig.defaults` and
`AppConfig.timeOptions`, in `src/config/money-flow/index.js`. The timer does four things:

- It classifies the current time of day against a shift (`calculateWorkStatus`) as before work, working
  or after work. Overnight shifts are included. From that it derives the progress, worked seconds,
  earnings so far, expected total and starting coin milestone.
- It starts and stops a session.
- While running, it ticks (`updateTimer`). Each tick accrues elapsed time and earnings and moves the time
  anchor forward. When the earnings pass a new whole unit, it celebrates with confetti of one of
  three sizes.
- It reports a countdown to the end of the shift (`getTimeUntilEnd`), a `formatTime` rendering
  "HH:MM:SS", a rounded and clamped progress percentage (`getProgressPercentage`) and a read-only
  view of the state (`getTimerState`).

The model is purely functional. `TimerManager.data` becomes the datatype `Timer.TimerData`. Every
method that mutates it becomes a function from the old state to the new one, returning whatever the
method returns or passes to its callback.

- **Clock reads become parameters.** An epoch timestamp in milliseconds stands for `dayjs().valueOf()`.
  A `Clock.WallClock(hour, minute, second)` stands for `dayjs().hour()`, `.minute()` and `.second()`.
- **`Decimal` becomes exact `real`.** `Math.floor` of a number is Dafny's `.Floor`, and
  `Math.floor(a / b)` of integers with `b > 0` is Dafny's integer `/`. Three JavaScript operations
  have no Dafny counterpart and are written out: `Math.round` (`Countdown.JsRound`), `%` truncating
  toward zero (`TimeFormat.JsRem`) and `toFixed(1)` rounding ties away from zero (`Progress.Tenths`).
- **A running interval becomes a fold.** `Timer.Run` applies the tick at a sequence of timestamps, so
  that properties of whole sessions can be stated.

Modules, one per concern:

| module | file | models |
|---|---|---|
| `Clock` | clock.dfy | `getCurrentTimeDecimal`, the second of the day, clockwise distance on a 24-hour dial |
| `WorkStatus` | work_status.dfy | `calculateWorkStatus` |
| `Countdown` | countdown.dfy | `getTimeUntilEnd` |
| `Progress` | progress.dfy | `getProgressPercentage` and `toFixed(1)` |
| `Text` | text.dfy | `toString()` and `padStart(2, '0')` on integers, with a digit reader |
| `TimeFormat` | format_time.dfy | `formatTime`, with an "H…H:MM:SS" reader as its partner |
| `Timer` | timer.dfy | `data`, `startTimer`, `stopTimer`, `updateTimer`, `getTimerState`, runs of ticks |
| `AppConfig` | app_config.dfy | `defaults` and `timeOptions` |
| `Scenarios` | scenarios.dfy | worked examples: concrete shifts, clocks and ticks |
| `Optional`, `Arithmetic` | optional.dfy, arithmetic.dfy | an option type, and facts about integer division |

### Behaviour a reader might not expect, which the model keeps

- **No after-work state overnight.** For an overnight shift the code never reaches `after_work`.
  Outside the shift it always reports `before_work`: at 10:00 on a 22:00–06:00 shift, the status is
  before work with nothing earned (`WorkStatus.Classify`, `Scenarios.NightShift`).
- **The status is frozen at start.** A tick never recomputes the work status; only starting the timer
  does. A session started during the shift keeps accruing after the shift ends, so its earnings can
  pass the expected total (`Scenarios.EarningsOvershoot`).
- **Skipped milestones.** A tick that jumps over several whole units celebrates once, and sizes the
  celebration by the last whole unit reached. A tick from 8.5 to 12.3 passes 10 but fires a small
  celebration for 12 (`Scenarios.SkippedMilestone`).
- **`getTimerState` always reports 0% progress.** It calls `getProgressPercentage` without a shift
  length.
- **No validation.** The schedule is never checked. Where a property needs both ends of the shift to
  be times of day, it says so with the predicate `WorkStatus.TimesOfDay`. The classifier itself
  requires only `WorkStatus.ProgressDefined`: the progress division must have a non-zero divisor
  in the branch that performs it.
- **Negative inputs to `formatTime`.** These print negative fields such as "-1:-1:-1", which no reader
  of the "HH:MM:SS" form accepts (`Scenarios.FormattedNegative`).

## Model

| member | source | states |
|---|---|---|
| `Clock.DecimalHours` | src/utils/money-flow/timer.js:22-27 | the decimal time of day lies in [0, 24); its whole part is the hour and its fraction times 60 is the minute, so the reading can be recovered |
| `Clock.SecondOfDay` | src/utils/money-flow/timer.js:215-218 | for a valid reading the second of the day lies in [0, 86400), and dividing by 60 gives back the minute of the day and the second |
| `WorkStatus.ShiftHours` | src/utils/money-flow/timer.js:36-41 | the shift length is the clockwise dial distance from start to end; an overnight shift between two times of day lasts strictly between 0 and 24 hours |
| `WorkStatus.Classify` | src/utils/money-flow/timer.js:29-104 | day shift: working iff start ≤ c < end, before work iff c < start, after work iff c ≥ both ends; overnight: working iff c ≥ start or c < end, and never after work; before work means nothing earned or done; after work means 100% and the full total; the milestone is the whole part of the earnings; the total is rate × shift length |
| `WorkStatus.ClassifyAt` | src/utils/money-flow/timer.js:22-30 | classification at a clock reading always sets a status and the total rate × shift length; on a day shift the user is working exactly from the start minute up to, not including, the end minute |
| `WorkStatus.ClassifyFollowsDial` | src/utils/money-flow/timer.js:43-90 | one rule for both kinds of shift: working exactly while the dial distance from start to c is below the shift length, and then the hours worked are that distance, giving earnings, worked seconds and progress |
| `WorkStatus.ClassifyBounds` | src/utils/money-flow/timer.js:54-94 | with times of day and a non-negative rate: 0 ≤ earnings ≤ expected total, progress in [0, 100], worked seconds within the shift, milestone ≥ 0, and the progress divisor is never zero |
| `WorkStatus.TimesOfDayProgressDefined` | src/utils/money-flow/timer.js:54 | for a shift between two times of day, the progress division never divides by zero |
| `WorkStatus.ShiftStartsFromZero` | src/utils/money-flow/timer.js:71-78 | at the start of any shift of non-zero length, the status is working with zero earnings, seconds, progress and milestone |
| `WorkStatus.DayShiftEndsWithTotal` | src/utils/money-flow/timer.js:84-88 | at the end of a day shift the status is after work, at 100% and with rate × (end − start) earned |
| `Countdown.JsRound` | src/utils/money-flow/timer.js:221 | `Math.round` lands within half a unit of its argument |
| `Countdown.EndSecond` | src/utils/money-flow/timer.js:220-222 | the end second is a whole minute, lies in the hour of the end time or at the start of the next, and for an end time in [0, 24) lies in [0, 86400] |
| `Countdown.TimeUntilEnd` | src/utils/money-flow/timer.js:203-235 | 0 after work; for a valid clock and an end second within the day, in [0, 86400]; positive on an overnight shift unless after work; 0 on a day shift once the clock reaches the end second |
| `Countdown.EndSecondOfMinute` | src/utils/money-flow/timer.js:220-222 | an end time on a whole minute ends at exactly hour·3600 + minute·60 |
| `Countdown.DayShiftCountdown` | src/utils/money-flow/timer.js:203-235 | day shift: the countdown lies in [0, 86400); it is 0 after work; otherwise it is positive iff the clock is before the end second, and then clock + countdown is the end second |
| `Countdown.OvernightCountdown` | src/utils/money-flow/timer.js:224-229 | overnight, unless after work, the countdown lies in (0, 86400] and lands on the end second modulo a day |
| `Countdown.WorkingHasTimeLeft` | src/utils/money-flow/timer.js:203-235 | whenever classification at a clock reading says working, the countdown at that reading is positive |
| `Countdown.MinuteOrder` | src/utils/money-flow/timer.js:26 | decimal hours at minute precision compare as minutes of the day do |
| `Progress.Tenths` | src/utils/money-flow/timer.js:270 | the tenths kept by `toFixed(1)` are the nearest whole number of tenths, a tie going away from zero, and keep the argument's sign |
| `Progress.RoundToTenth` | src/utils/money-flow/timer.js:270 | the rounded value has at most one decimal place and lies in (x − 0.05, x + 0.05] for x ≥ 0 and in [x − 0.05, x + 0.05) for x < 0, so it is the nearest tenth with ties away from zero; it keeps its sign |
| `Progress.Clamp` | src/utils/money-flow/timer.js:270 | `Math.min(100, Math.max(0, x))` lies in [0, 100]: it returns x unchanged inside [0, 100], 0 at or below 0 and 100 at or above 100 |
| `Progress.ProgressPercentage` | src/utils/money-flow/timer.js:262-271 | a missing or non-positive shift length gives 0; otherwise, with c the raw percentage initial progress + elapsed/(hours·3600)·100 clamped to [0, 100], the result lies in (c − 0.05, c + 0.05]: the nearest tenth to c, a tie rounding up; always in [0, 100] with at most one decimal |
| `Progress.RoundToTenthMonotone` | src/utils/money-flow/timer.js:270 | rounding to tenths never reverses an order |
| `Progress.ProgressMonotone` | src/utils/money-flow/timer.js:262-271 | more elapsed time never shows less progress |
| `Text.NatToString` | src/utils/money-flow/timer.js:243 | the rendering of a non-negative integer is one digit exactly below 10 and has no leading zero otherwise |
| `Text.IntToString` | src/utils/money-flow/timer.js:243-245 | a negative integer renders with a leading minus and at least one digit; a non-negative one renders as one character exactly below 10 |
| `Text.IntToStringRoundTrip` | src/utils/money-flow/timer.js:243-245 | every rendering reads back as its integer: a non-negative one as its digits, a negative one as a minus sign followed by the digits of its magnitude |
| `Text.NatToStringRoundTrip` | src/utils/money-flow/timer.js:243 | reading back the digits of a non-negative integer gives the integer |
| `Text.LeadingZerosValue` | src/utils/money-flow/timer.js:243-245 | zero padding on the left does not change the value a digit string denotes |
| `Text.PaddedRoundTrip` | src/utils/money-flow/timer.js:243-245 | a zero-padded rendering reads back as the number rendered |
| `Text.PadStart` | src/utils/money-flow/timer.js:243-245 | padding reaches the requested width and leaves a longer string's length alone |
| `Text.PadStartShape` | src/utils/money-flow/timer.js:243-245 | the padded string ends with the original, and everything in front of it is the fill character |
| `Text.Pad2` | src/utils/money-flow/timer.js:243-245 | two-digit padding gives exactly two characters to a shorter string and leaves a longer one its length |
| `Text.RepeatIsConstant` | src/utils/money-flow/timer.js:243-245 | the fill put in front consists of the fill character only |
| `TimeFormat.JsRem` | src/utils/money-flow/timer.js:240-241 | JavaScript's remainder differs from the dividend by a multiple of the divisor, is smaller than the divisor in magnitude, and has the dividend's sign |
| `TimeFormat.Split` | src/utils/money-flow/timer.js:238-241 | for any whole count the hours are its floor division by 3600, the minutes lie in [−60, 59] and the seconds in (−60, 60), both non-negative for a non-negative count |
| `TimeFormat.SplitInRange` | src/utils/money-flow/timer.js:238-241 | for a non-negative count, the minutes and seconds lie in [0, 59], the hours are non-negative, and hours·3600 + minutes·60 + seconds is the count |
| `TimeFormat.FormatTime` | src/utils/money-flow/timer.js:237-246 | whatever the input, negative ones included, the rendering has at least eight characters |
| `TimeFormat.FormatTimeRoundTrip` | src/utils/money-flow/timer.js:237-246 | reading the rendering of a non-negative input back as "H…H:MM:SS" gives the floor of the input |
| `TimeFormat.FormatTimeWidth` | src/utils/money-flow/timer.js:243-245 | below 100 hours the rendering is exactly "HH:MM:SS", eight characters with colons at positions 2 and 5 |
| `TimeFormat.RenderRoundTrip` | src/utils/money-flow/timer.js:243-245 | fields in range render to text that reads back as the seconds they stand for |
| `Timer.InitialData` | src/utils/money-flow/timer.js:6-20 | before the first start the timer is not running, has no status and no time anchor, has nothing elapsed, earned, expected, done or worked, a milestone of 0, and `systemTime` at the load time |
| `Timer.StartTimer` | src/utils/money-flow/timer.js:106-134 | a start sets elapsed time to 0, runs the timer, anchors both times at the start moment and takes status, progress, worked seconds, earnings, milestone and total from classification at the clock's hour and minute; each of the six fields of the returned initial state reports the started timer |
| `Timer.StopTimer` | src/utils/money-flow/timer.js:136-140 | stopping clears `isRunning` and nothing else |
| `Timer.MilestoneFor` | src/utils/money-flow/timer.js:163-172 | hundreds are large with 50 coins, other tens are medium with 30, and everything else is small with 20 |
| `Timer.Delta` | src/utils/money-flow/timer.js:147 | the tick delta is the milliseconds since the anchor in seconds, non-negative when time moves forward |
| `Timer.Tick` | src/utils/money-flow/timer.js:142-173 | a tick anchors at `now`, never changes the status, and adds delta and rate × delta to elapsed time and earnings exactly when working; a milestone fires iff the whole earnings pass the last one, which then becomes that whole part; nothing else changes |
| `Timer.UpdateTimer` | src/utils/money-flow/timer.js:142-201 | the snapshot passed to `onUpdate` reports the ticked elapsed time and earnings, the tick's time, the unchanged status, worked seconds and expected total, and the countdown at the clock, which is 0 after work |
| `Timer.GetTimerState` | src/utils/money-flow/timer.js:248-260 | the view copies every field it reports from the timer except the progress, which is always 0% |
| `Timer.Run` | src/utils/money-flow/timer.js:116-118 | the interval's ticks applied in order keep the anchor set, and celebrate at most once per tick |
| `Timer.TickMonotone` | src/utils/money-flow/timer.js:150-157 | with time moving forward and a non-negative rate, a tick never takes elapsed time or earnings back |
| `Timer.TickKeepsMilestoneBehind` | src/utils/money-flow/timer.js:159-162 | the last milestone stays at or below the whole earnings across a tick |
| `Timer.TickWhileIdle` | src/utils/money-flow/timer.js:145-162 | outside working, a tick with no pending milestone only moves the clock fields |
| `Timer.TickKeepsBaseline` | src/utils/money-flow/timer.js:150-157 | a tick keeps earnings − rate × elapsed time unchanged |
| `Timer.RunAccruesExactly` | src/utils/money-flow/timer.js:142-157 | over any run of ticks in a working session, elapsed time grows by exactly the span from the anchor to the last tick and earnings by the rate times that span, whatever the spacing of the ticks |
| `Timer.RunEarnsHourlyRate` | src/utils/money-flow/timer.js:142-157 | when the per-second rate is the hourly rate over 3600, a working run earns the hourly rate for every hour between its anchor and its last tick |
| `Timer.RunElapsed` | src/utils/money-flow/timer.js:145-152 | a working run ends anchored at its last tick, with the span to it added to the elapsed time |
| `Timer.RunKeepsBaseline` | src/utils/money-flow/timer.js:150-157 | a run keeps earnings − rate × elapsed time unchanged |
| `Timer.RunKeepsStatus` | src/utils/money-flow/timer.js:142-201 | a run never changes the status, and outside working it accrues nothing |
| `Timer.RunMilestonesBounded` | src/utils/money-flow/timer.js:159-173 | the last milestone never decreases over a run, and a run fires no more celebrations than the whole units it gains |
| `Timer.RunMonotone` | src/utils/money-flow/timer.js:142-173 | with ticks in time order and a non-negative rate, elapsed time and earnings never decrease over a run and the last milestone stays at or below the whole earnings |
| `Timer.StartForgetsPast` | src/utils/money-flow/timer.js:106-114 | two timers started with the same configuration at the same moment agree on every field except `systemTime`, which starting does not touch |
| `Timer.StopThenStart` | src/utils/money-flow/timer.js:106-140 | stopping is idempotent, and a start after a stop is the same as a start without it |
| `Timer.StartBounds` | src/utils/money-flow/timer.js:106-114 | right after a start with times of day and a non-negative rate, 0 ≤ earnings ≤ total, progress lies in [0, 100], and the milestone is the whole part of the earnings |
| `AppConfig.TimeOptions` | src/config/money-flow/index.js:15 | the table has 24 × 2 = 48 entries |
| `AppConfig.TimeOptionAt` | src/config/money-flow/index.js:15-22 | entry i has value i/2, whose whole part is i div 2 |
| `AppConfig.OptionAtParts` | src/config/money-flow/index.js:15-22 | entry i has value i/2, and its label is the zero-padded i div 2, then ":00" for even i and ":30" for odd i |
| `AppConfig.CaptionRoundTrip` | src/config/money-flow/index.js:16-21 | every label reads back as "HH:MM" to the value it labels |
| `AppConfig.TimeOptionsOrdered` | src/config/money-flow/index.js:15-23 | the values lie in [0, 23.5] and are strictly increasing |
| `AppConfig.EveryHalfHourOffered` | src/config/money-flow/index.js:15-23 | every whole and half hour of the day appears in the table |
| `AppConfig.CaptionsDistinct` | src/config/money-flow/index.js:17-21 | no two entries share a label |
| `AppConfig.DefaultsAreOffered` | src/config/money-flow/index.js:2-7 | the defaults start at 09:00 and end at 18:00, two offered entries, forming a nine-hour day shift between times of day |
| `Scenarios.NightShift` | src/utils/money-flow/timer.js:43-69 | 22:00–06:00: working one hour in at 23:00 and four hours in (50%) at 02:00; before work with nothing earned at 10:00 |
| `Scenarios.DefaultDayShift` | src/utils/money-flow/timer.js:71-94 | 09:00–18:00: nothing earned at 09:00, 50% at 13:30, after work with nine hours' pay at 18:00, before work at 08:00 |
| `Scenarios.Milestones` | src/utils/money-flow/timer.js:163-172 | 100 and 200 are large, 50 is medium, 41 is small |
| `Scenarios.FormattedTimes` | src/utils/money-flow/timer.js:237-246 | 3661 s prints "01:01:01", 59.9 s prints "00:00:59" and 0 prints "00:00:00" |
| `Scenarios.FormattedHundredHours` | src/utils/money-flow/timer.js:239-245 | 360000 s prints "100:00:00" |
| `Scenarios.FormattedNegative` | src/utils/money-flow/timer.js:238-245 | −1 s prints "-1:-1:-1", which the "H…H:MM:SS" reader rejects |
| `Scenarios.Countdowns` | src/utils/money-flow/timer.js:203-235 | 25200 s from 23:00 to a 06:00 end, 1785 s from 17:30:15 to an 18:00 end, and 0 after work |
| `Scenarios.Percentages` | src/utils/money-flow/timer.js:257-271 | 1620 s into a nine-hour shift from 50% shows 55.0%, overflow clamps to 100, no length gives 0, `getTimerState` reports 0, and 16.2 s into a nine-hour shift (exactly 0.05%) shows 0.1% |
| `Scenarios.SkippedMilestone` | src/utils/money-flow/timer.js:159-173 | a tick from 8.5 to 12.3 fires only a small celebration, for 12 |
| `Scenarios.EarningsOvershoot` | src/utils/money-flow/timer.js:150-157 | a session still marked working after its shift earns past the expected total |

## Left out

- `EffectsManager` (particles, confetti, coin drops, start and stop animations): a milestone is reported
  as its `Timer.Milestone` tag (size and coin count) instead.
- `countUp` and `animateNumberUpdate`: a display tween with no effect on the timer's arithmetic.
- The progress-bar DOM writes at the end of `updateTimer` (timer.js:175-188).
- `setInterval` and `clearInterval`: a tick is a state transformer, and a running interval is `Timer.Run`
  over the timestamps of its ticks. The `timerInterval` handle is not a field of `Timer.TimerData`.
  So it is not modelled that `startTimer` leaves an earlier interval running.
- The clock: every `dayjs()` read is a parameter. Each call reads the clock anew, so `calculateWorkStatus`,
  `updateTimer` and `getTimeUntilEnd` may see different instants; the model takes the reading of each
  of them as a separate argument.
- `Timer.Tick`: takes the two back-to-back reads at the start of `updateTimer` (timer.js:145-146, the
  epoch time and `systemTime`) as one instant `now`, so the model always has `systemTime == currentTime`
  after a tick, where the source may see them a millisecond apart.
- `systemTime` holds a dayjs object; the model keeps only its epoch milliseconds.
- Floating point: `Decimal` arithmetic and the numbers built from it are exact reals. Rounding error in
  `Math.round((endTime − endHour)·60)` is not modelled.
- `WorkStatus.Classify`: computes worked seconds on exact reals. The source ends every `Decimal` step in
  `.toNumber()`, so a value like 2/3 enters the next step as a rounded double. At 09:40 on a 09:00
  start this makes the source compute floor(2399.9999999999976) = 2399 worked seconds, where the model
  gives 2400. Such off-by-one floors of `initialWorkedSeconds` (and the matching rounding of progress and
  earnings) are not modelled. The countdown lemmas take end times on whole
  minutes, which is what the time options offer.
- `Timer.Tick`: requires a time anchor. Before the first start `currentTime` is null, and decimal.js
  would throw on it; that exception is not modelled.
- `WorkStatus.Classify`: requires a non-zero divisor in the working branch. Otherwise JavaScript gives
  NaN or Infinity, and these are not modelled. No shift between two times of day is affected.
- `Timer.Config`: `perSecondRate` and `calculatedWorkHours` come from the caller and are not derived
  from the salary settings here. `Timer.ConsistentRate` names the intended relation to the hourly rate,
  under which `Timer.RunEarnsHourlyRate` holds.
- `AppConfig.salaryTypes` (index.js:9-13): display labels only.
- The `label` of a time option is named `caption`, because `label` is a Dafny keyword.

=== FILE: app_config.dfy ===
/**
 The configuration the timer is set up from: the default settings and the table of
 time options the settings form offers, one every half hour of the day, each with a
 "HH:MM" label.
 */
module AppConfig {

  import opened Optional
  import opened Text
  import opened WorkStatus

  datatype SalaryType = Hourly | Daily | Monthly

  /** The settings the form edits; times of day are decimal hours. */
  datatype Settings = Settings(salaryType: SalaryType, salaryAmount: real, startTime: real, endTime: real)

  /** The settings a first-time user starts from. */
  const Defaults: Settings := Settings(Monthly, 10000.0, 9.0, 18.0)

  /** One entry of the time picker; `caption` is the source's `label`. */
  datatype TimeOption = TimeOption(caption: string, value: real)

  /** The number of time options: two per hour. */
  const OptionCount: nat := 24 * 2

  /** The option at `index`: `index` half hours after midnight, labelled with the zero-padded
      hour and ":00" or ":30" depending on whether the time falls on a whole hour. */
  function TimeOptionAt(index: nat): (option: TimeOption)
    requires index < OptionCount
    ensures option.value * 2.0 == index as real
    ensures option.value.Floor == index / 2
  {
    var time := index as real * 0.5;
    var hour := time.Floor;
    var minute := if time.Floor as real == time then "00" else "30";
    TimeOption(Pad2(NatToString(hour)) + ":" + minute, time)
  }

  /** timeOptions. */
  function TimeOptions(): (options: seq<TimeOption>)
    ensures |options| == OptionCount
  {
    seq(OptionCount, i requires 0 <= i < OptionCount => TimeOptionAt(i))
  }

  /** Reads an "HH:MM" caption back into decimal hours; None for anything else. */
  function ParseCaption(s: string): Option<real> {
    if |s| != 5 || s[2] != ':' then None
    else
      var h, m := ReadDigits(s[..2]), ReadDigits(s[3..]);
      if h.Some? && m.Some? && m.value < 60 then Some(h.value as real + m.value as real / 60.0)
      else None
  }

  /** The option at an index is that many half hours, and its caption is the two-digit hour,
      a colon and the two-digit minute. */
  lemma OptionAtParts(index: nat)
    requires index < OptionCount
    ensures TimeOptionAt(index).value * 2.0 == index as real
    ensures var hour, minute := index / 2, if index % 2 == 0 then "00" else "30";
      TimeOptionAt(index).caption == Pad2(NatToString(hour)) + ":" + minute
  {
    var time := index as real * 0.5;
    if index % 2 == 0 {
      assert time == (index / 2) as real;
    } else {
      assert time == (index / 2) as real + 0.5;
    }
  }

  lemma CaptionSlices(hh: string, mm: string)
    requires |hh| == 2 && |mm| == 2
    ensures var s := hh + ":" + mm;
      |s| == 5 && s[2] == ':' && s[..2] == hh && s[3..] == mm
  {
  }

  lemma MinuteDigits(minute: string)
    requires minute == "00" || minute == "30"
    ensures ReadDigits(minute) == Some(if minute == "00" then 0 else 30)
  {
    if minute == "00" {
      ReadDigitsSnoc([], '0');
      ReadDigitsSnoc("0", '0');
      assert [] + ['0'] == "0" && "0" + ['0'] == "00";
    } else {
      ReadDigitsSnoc([], '3');
      ReadDigitsSnoc("3", '0');
      assert [] + ['3'] == "3" && "3" + ['0'] == "30";
    }
  }

  lemma ParseCaptionOf(hh: string, mm: string, h: nat, m: nat)
    requires |hh| == 2 && |mm| == 2
    requires ReadDigits(hh) == Some(h) && ReadDigits(mm) == Some(m) && m < 60
    ensures ParseCaption(hh + ":" + mm) == Some(h as real + m as real / 60.0)
  {
    CaptionSlices(hh, mm);
  }

  /** Every caption reads back as the value it labels. */
  lemma CaptionRoundTrip(index: nat)
    requires index < OptionCount
    ensures ParseCaption(TimeOptionAt(index).caption) == Some(TimeOptionAt(index).value)
  {
    OptionAtParts(index);
    var hour := index / 2;
    var minute := if index % 2 == 0 then "00" else "30";
    var m := if index % 2 == 0 then 0 else 30;
    PaddedRoundTrip(hour, 2);
    MinuteDigits(minute);
    ParseCaptionOf(Pad2(NatToString(hour)), minute, hour, m);
    assert (hour as real + m as real / 60.0) * 2.0 == index as real;
  }

  /** The options run from midnight to half past eleven in the evening, half an hour apart, so
      their values are strictly increasing. */
  lemma TimeOptionsOrdered()
    ensures forall i :: 0 <= i < OptionCount ==> 0.0 <= TimeOptions()[i].value <= 23.5
    ensures forall i, j :: 0 <= i < j < OptionCount ==> TimeOptions()[i].value < TimeOptions()[j].value
  {
    forall i | 0 <= i < OptionCount
      ensures TimeOptions()[i].value * 2.0 == i as real
    {
      OptionAtParts(i);
    }
  }

  /** Every whole or half hour of the day is offered. */
  lemma EveryHalfHourOffered(hour: nat, half: bool)
    requires hour < 24
    ensures var i := hour * 2 + (if half then 1 else 0);
      i < OptionCount && TimeOptions()[i].value == hour as real + (if half then 0.5 else 0.0)
  {
    OptionAtParts(hour * 2 + (if half then 1 else 0));
  }

  /** No two options share a caption. */
  lemma CaptionsDistinct(i: nat, j: nat)
    requires i < OptionCount && j < OptionCount && i != j
    ensures TimeOptions()[i].caption != TimeOptions()[j].caption
  {
    CaptionRoundTrip(i);
    CaptionRoundTrip(j);
    OptionAtParts(i);
    OptionAtParts(j);
  }

  /** The default shift runs from 9:00 to 18:00, two of the offered times, within one day:
      nine hours of work. */
  lemma DefaultsAreOffered()
    ensures TimeOptions()[18].value == Defaults.startTime && TimeOptions()[18].caption == "09:00"
    ensures TimeOptions()[36].value == Defaults.endTime && TimeOptions()[36].caption == "18:00"
    ensures var s := Schedule(Defaults.startTime, Defaults.endTime, 0.0);
      TimesOfDay(s) && !IsOvernight(s) && ShiftHours(s) == 9.0
  {
    OptionAtParts(18);
    OptionAtParts(36);
    assert NatToString(9) == "9";
    assert NatToString(18) == NatToString(1) + [DigitChar(8)];
  }

}

=== FILE: arithmetic.dfy ===
/** Facts about integer division that the time arithmetic leans on. */
module Arithmetic {

  lemma DivModUnique(a: int, b: int, q: int, r: int)
    requires b > 0 && a == q * b + r && 0 <= r < b
    ensures a / b == q && a % b == r
  {
    var q', r' := a / b, a % b;
    assert (q - q') * b == r' - r;
    if q > q' {
      MulAtLeast(q - q', b);
    } else if q < q' {
      MulAtLeast(q' - q, b);
    }
  }

  lemma MulAtLeast(k: int, b: int)
    requires k >= 1 && b > 0
    ensures k * b >= b
  {
  }

  /** Adding whole days to a second of the day does not change which second it is. */
  lemma ModDay(x: int, days: int)
    requires 0 <= x < 86400
    ensures (x + days * 86400) % 86400 == x
  {
    DivModUnique(x + days * 86400, 86400, days, x);
  }

}

=== FILE: clock.dfy ===
/**
 Wall-clock readings. The source reads the clock through `dayjs()`; here every
 reading is a parameter: a local time of day as hour, minute and second, and
 (in the timer) an epoch timestamp in milliseconds.
 */
module Clock {

  const SecondsPerDay: int := 86400

  /** A local time of day as `dayjs().hour()`, `.minute()` and `.second()` report it. */
  datatype WallClock = WallClock(hour: int, minute: int, second: int)
  {
    predicate Valid() {
      0 <= hour < 24 && 0 <= minute < 60 && 0 <= second < 60
    }
  }

  /** getCurrentTimeDecimal: the time of day in decimal hours, to minute precision.
      The hour and the minute can be read back from the result. */
  function DecimalHours(hour: int, minute: int): (r: real)
    requires 0 <= hour < 24 && 0 <= minute < 60
    ensures 0.0 <= r < 24.0
    ensures r.Floor == hour
    ensures (r - hour as real) * 60.0 == minute as real
  {
    hour as real + minute as real / 60.0
  }

  /** The second of the day a reading names, in [0, 86400) for a valid reading. */
  function SecondOfDay(c: WallClock): (r: int)
    ensures c.Valid() ==> 0 <= r < SecondsPerDay
    ensures c.Valid() ==> r / 60 == c.hour * 60 + c.minute && r % 60 == c.second
  {
    c.hour * 3600 + c.minute * 60 + c.second
  }

  /** How far the hand of a 24-hour dial travels clockwise from `a` to `b`:
      the one value in [0, 24) that differs from `b - a` by a multiple of a day. */
  function DialDistance(a: real, b: real): (r: real)
    requires 0.0 <= a < 24.0 && 0.0 <= b < 24.0
    ensures 0.0 <= r < 24.0
    ensures r == b - a || r == b - a + 24.0
  {
    if a <= b then b - a else b - a + 24.0
  }

}

=== FILE: countdown.dfy ===
/**
 The countdown to the end of the shift (`getTimeUntilEnd`), in whole seconds, at
 the second precision of the wall clock rather than the minute precision the
 classifier uses.
 */
module Countdown {

  import opened Clock
  import opened WorkStatus
  import opened Arithmetic

  /** `Math.round`: the nearest integer, halves rounded up. */
  function JsRound(x: real): (n: int)
    ensures x - 0.5 < n as real <= x + 0.5
  {
    (x + 0.5).Floor
  }

  /** The second of the day at which the shift ends: the whole hours of `endTime`, plus its
      fraction rounded to whole minutes. */
  function EndSecond(endTime: real): (r: int)
    ensures r % 60 == 0
    ensures endTime.Floor * 3600 <= r <= endTime.Floor * 3600 + 3600
    ensures 0.0 <= endTime < 24.0 ==> 0 <= r <= SecondsPerDay
  {
    var endHour := endTime.Floor;
    var endMinute := JsRound((endTime - endHour as real) * 60.0);
    endHour * 3600 + endMinute * 60
  }

  /** Seconds left until the shift ends, read with the timer's stored status. */
  function TimeUntilEnd(status: Status, s: Schedule, now: WallClock): (r: int)
    ensures status == AfterWork ==> r == 0
    ensures now.Valid() && 0 <= EndSecond(s.endTime) < SecondsPerDay ==> 0 <= r <= SecondsPerDay
    ensures && now.Valid() && 0 <= EndSecond(s.endTime) < SecondsPerDay
            && status != AfterWork && s.endTime < s.startTime
            ==> 0 < r
    ensures !(s.endTime < s.startTime) && SecondOfDay(now) >= EndSecond(s.endTime) ==> r == 0
  {
    if status == AfterWork then 0
    else
      var current := SecondOfDay(now);
      var end := EndSecond(s.endTime);
      if s.endTime < s.startTime then
        if current < end then end - current else SecondsPerDay - current + end
      else if current < end then end - current
      else 0
  }

  /** An end time that is a whole minute of the day ends at exactly that minute. */
  lemma EndSecondOfMinute(hour: int, minute: int)
    requires 0 <= hour < 24 && 0 <= minute < 60
    ensures EndSecond(DecimalHours(hour, minute)) == hour * 3600 + minute * 60
  {
    var t := DecimalHours(hour, minute);
    assert t.Floor == hour;
    assert (t - hour as real) * 60.0 == minute as real;
    assert JsRound(minute as real) == minute;
  }

  /** Day shift: the countdown is the distance to the end second while the clock is before it
      and 0 from then on, so it lies in [0, 86400). After work it is always 0. */
  lemma DayShiftCountdown(status: Status, s: Schedule, now: WallClock, endHour: int, endMinute: int)
    requires now.Valid()
    requires 0 <= endHour < 24 && 0 <= endMinute < 60
    requires s.endTime == DecimalHours(endHour, endMinute)
    requires !IsOvernight(s)
    ensures var r := TimeUntilEnd(status, s, now);
      && 0 <= r < SecondsPerDay
      && (status == AfterWork ==> r == 0)
      && (status != AfterWork ==>
            (0 < r <==> SecondOfDay(now) < EndSecond(s.endTime))
            && (0 < r ==> SecondOfDay(now) + r == endHour * 3600 + endMinute * 60))
  {
    EndSecondOfMinute(endHour, endMinute);
  }

  /** Overnight shift: unless the stored status is after work, the countdown is positive, at
      most one day, and lands exactly on the end second when added to the clock, past midnight
      if need be. */
  lemma OvernightCountdown(status: Status, s: Schedule, now: WallClock, endHour: int, endMinute: int)
    requires now.Valid()
    requires 0 <= endHour < 24 && 0 <= endMinute < 60
    requires s.endTime == DecimalHours(endHour, endMinute)
    requires IsOvernight(s)
    requires status != AfterWork
    ensures var r := TimeUntilEnd(status, s, now);
      && 0 < r <= SecondsPerDay
      && (SecondOfDay(now) + r) % SecondsPerDay == endHour * 3600 + endMinute * 60
  {
    EndSecondOfMinute(endHour, endMinute);
    var current := SecondOfDay(now);
    var end := EndSecond(s.endTime);
    var r := TimeUntilEnd(status, s, now);
    assert 0 <= end < SecondsPerDay;
    if current < end {
      assert current + r == end;
      ModDay(end, 0);
    } else {
      assert current + r == end + 1 * SecondsPerDay;
      ModDay(end, 1);
    }
  }

  /** Whenever classification at a clock reading finds the user working, the countdown read
      at the same hour and minute has time left. */
  lemma WorkingHasTimeLeft(s: Schedule, now: WallClock, endHour: int, endMinute: int)
    requires now.Valid()
    requires 0 <= endHour < 24 && 0 <= endMinute < 60
    requires s.endTime == DecimalHours(endHour, endMinute)
    requires ProgressDefined(s, DecimalHours(now.hour, now.minute))
    requires Classify(s, DecimalHours(now.hour, now.minute)).workStatus == Working
    ensures TimeUntilEnd(Working, s, now) > 0
  {
    if IsOvernight(s) {
      OvernightCountdown(Working, s, now, endHour, endMinute);
    } else {
      MinuteOrder(now.hour, now.minute, endHour, endMinute);
      EndSecondOfMinute(endHour, endMinute);
    }
  }

  /** Decimal hours at minute precision compare as the minutes of the day do. */
  lemma MinuteOrder(hour: int, minute: int, endHour: int, endMinute: int)
    requires 0 <= hour < 24 && 0 <= minute < 60
    requires 0 <= endHour < 24 && 0 <= endMinute < 60
    requires DecimalHours(hour, minute) < DecimalHours(endHour, endMinute)
    ensures hour * 60 + minute < endHour * 60 + endMinute
  {
    assert DecimalHours(hour, minute) * 60.0 == (hour * 60 + minute) as real;
    assert DecimalHours(endHour, endMinute) * 60.0 == (endHour * 60 + endMinute) as real;
  }

}

=== FILE: format_time.dfy ===
/**
 `formatTime`: a number of seconds shown as "HH:MM:SS", and a reader for that
 form so that the rendering can be stated as a round trip.
 */
module TimeFormat {

  import opened Optional
  import opened Text
  import opened Arithmetic

  /** JavaScript's `%` on integers: the remainder of division truncated toward zero. It differs
      from `a` by a multiple of `b`, is smaller than `b` in magnitude and has the sign of the
      dividend, which together fix it. */
  function JsRem(a: int, b: int): (r: int)
    requires b > 0
    ensures (a - r) % b == 0
    ensures -b < r < b
    ensures a >= 0 ==> r >= 0
    ensures a < 0 ==> r <= 0
  {
    TruncatedRemainder(a, b);
    if a >= 0 then a % b else -((-a) % b)
  }

  lemma TruncatedRemainder(a: int, b: int)
    requires b > 0
    ensures a >= 0 ==> (a - a % b) % b == 0
    ensures a < 0 ==> (a + (-a) % b) % b == 0
  {
    if a >= 0 {
      var q, m := a / b, a % b;
      assert a - m == q * b;
      DivModUnique(q * b, b, q, 0);
    } else {
      var q, m := (-a) / b, (-a) % b;
      assert -a == q * b + m;
      assert a + m == (-q) * b;
      DivModUnique((-q) * b, b, -q, 0);
    }
  }

  /** The three fields formatTime prints for a whole number of seconds. `Math.floor(a / b)` for
      a positive divisor is Dafny's `/` on integers. */
  datatype Fields = Fields(hours: int, minutes: int, seconds: int)

  function Split(whole: int): (f: Fields)
    ensures f.hours == whole / 3600
    ensures -60 <= f.minutes < 60 && -60 < f.seconds < 60
    ensures whole >= 0 ==> 0 <= f.minutes && 0 <= f.seconds
  {
    Fields(whole / 3600, JsRem(whole, 3600) / 60, JsRem(whole, 60))
  }

  /** For a non-negative count the fields are in range and add back up to it. */
  lemma SplitInRange(whole: int)
    requires whole >= 0
    ensures var f := Split(whole);
      && 0 <= f.hours && 0 <= f.minutes < 60 && 0 <= f.seconds < 60
      && f.hours * 3600 + f.minutes * 60 + f.seconds == whole
  {
    SplitArithmetic(whole);
  }

  /** Hours, minutes and seconds of a non-negative count add back up to it. */
  lemma SplitArithmetic(whole: int)
    requires whole >= 0
    ensures 0 <= whole / 3600
    ensures 0 <= (whole % 3600) / 60 < 60 && 0 <= whole % 60 < 60
    ensures (whole / 3600) * 3600 + ((whole % 3600) / 60) * 60 + whole % 60 == whole
  {
    var q, r := whole / 3600, whole % 3600;
    var m, s := r / 60, r % 60;
    assert r == m * 60 + s;
    assert whole == (q * 60 + m) * 60 + s;
    DivModUnique(whole, 60, q * 60 + m, s);
  }

  /** Three fields joined by colons. */
  function Join(hh: string, mm: string, ss: string): string {
    hh + ":" + mm + ":" + ss
  }

  function Render(f: Fields): string {
    Join(Pad2(IntToString(f.hours)), Pad2(IntToString(f.minutes)), Pad2(IntToString(f.seconds)))
  }

  /** formatTime. Whatever the input, each of the three fields is at least two characters. */
  function FormatTime(seconds: real): (s: string)
    ensures |s| >= 8
  {
    Render(Split(seconds.Floor))
  }

  /** The seconds three digit fields stand for, when the minutes and seconds are below 60. */
  function FieldsValue(hh: string, mm: string, ss: string): Option<int> {
    var h, m, sec := ReadDigits(hh), ReadDigits(mm), ReadDigits(ss);
    if h.Some? && m.Some? && sec.Some? && m.value < 60 && sec.value < 60
    then Some(h.value * 3600 + m.value * 60 + sec.value)
    else None
  }

  /** Reads "H…H:MM:SS" (two or more hour digits) back into seconds; None for anything else. */
  function ParseClock(s: string): Option<int> {
    if |s| < 8 || s[|s| - 6] != ':' || s[|s| - 3] != ':' then None
    else FieldsValue(s[..|s| - 6], s[|s| - 5..|s| - 3], s[|s| - 2..])
  }

  /** A field formatTime prints for a non-negative number reads back as that number, and is two
      characters wide below 100. */
  lemma PaddedField(n: nat)
    ensures ReadDigits(Pad2(IntToString(n))) == Some(n)
    ensures n < 100 ==> |Pad2(IntToString(n))| == 2
  {
    PaddedRoundTrip(n, 2);
  }

  lemma JoinSlices(a: string, b: string, c: string)
    requires |b| == 2 && |c| == 2
    ensures var s := a + ":" + b + ":" + c;
      && |s| == |a| + 6
      && s[..|s| - 6] == a && s[|s| - 6] == ':'
      && s[|s| - 5..|s| - 3] == b && s[|s| - 3] == ':'
      && s[|s| - 2..] == c
  {
  }

  /** The reader accepts any hour digits followed by two-digit minutes and seconds in range. */
  lemma ParseJoined(h: string, m: string, sec: string)
    requires |h| >= 2 && |m| == 2 && |sec| == 2
    ensures ParseClock(Join(h, m, sec)) == FieldsValue(h, m, sec)
  {
    JoinSlices(h, m, sec);
  }

  lemma ParseDigitFields(h: string, m: string, sec: string, hours: nat, minutes: nat, seconds: nat)
    requires |h| >= 2 && |m| == 2 && |sec| == 2
    requires ReadDigits(h) == Some(hours) && ReadDigits(m) == Some(minutes) && ReadDigits(sec) == Some(seconds)
    requires minutes < 60 && seconds < 60
    ensures ParseClock(Join(h, m, sec)) == Some(hours * 3600 + minutes * 60 + seconds)
  {
    ParseJoined(h, m, sec);
  }

  /** Rendering fields in range and reading them back gives the seconds they stand for. */
  lemma RenderRoundTrip(f: Fields)
    requires 0 <= f.hours && 0 <= f.minutes < 60 && 0 <= f.seconds < 60
    ensures ParseClock(Render(f)) == Some(f.hours * 3600 + f.minutes * 60 + f.seconds)
  {
    var h, m, sec := Pad2(IntToString(f.hours)), Pad2(IntToString(f.minutes)), Pad2(IntToString(f.seconds));
    PaddedField(f.hours);
    PaddedField(f.minutes);
    PaddedField(f.seconds);
    ParseDigitFields(h, m, sec, f.hours, f.minutes, f.seconds);
  }

  /** Reading back what formatTime prints for a non-negative input gives the whole number of
      seconds it was given. */
  lemma FormatTimeRoundTrip(seconds: real)
    requires seconds >= 0.0
    ensures ParseClock(FormatTime(seconds)) == Some(seconds.Floor)
  {
    WholeRoundTrip(seconds.Floor);
  }

  lemma WholeRoundTrip(whole: int)
    requires whole >= 0
    ensures ParseClock(Render(Split(whole))) == Some(whole)
  {
    SplitInRange(whole);
    RenderRoundTrip(Split(whole));
  }

  lemma JoinWidth(h: string, m: string, sec: string)
    requires |h| == 2 && |m| == 2 && |sec| == 2
    ensures |Join(h, m, sec)| == 8 && Join(h, m, sec)[2] == ':' && Join(h, m, sec)[5] == ':'
  {
  }

  /** Below 100 hours a non-negative input prints as exactly "HH:MM:SS". */
  lemma FormatTimeWidth(seconds: real)
    requires 0.0 <= seconds < 360000.0
    ensures |FormatTime(seconds)| == 8
    ensures FormatTime(seconds)[2] == ':' && FormatTime(seconds)[5] == ':'
  {
    var f := Split(seconds.Floor);
    SplitInRange(seconds.Floor);
    assert f.hours < 100;
    PaddedField(f.hours);
    PaddedField(f.minutes);
    PaddedField(f.seconds);
    JoinWidth(Pad2(IntToString(f.hours)), Pad2(IntToString(f.minutes)), Pad2(IntToString(f.seconds)));
  }

}

=== FILE: optional.dfy ===
/** A value that may be absent: JavaScript's `null`/`undefined` for a field or argument. */
module Optional {

  datatype Option<+T> = None | Some(value: T)

}

=== FILE: progress.dfy ===
/**
 The progress percentage (`getProgressPercentage`): the share of the shift done
 when the timer started plus the share accrued since, rounded to one decimal
 place and kept within [0, 100].
 */
module Progress {

  import opened Optional

  /** The number of tenths `Decimal.toFixed(1)` keeps under decimal.js's default rounding:
      to the nearest tenth, halves away from zero. */
  function Tenths(x: real): (n: int)
    ensures x * 10.0 - 0.5 <= n as real <= x * 10.0 + 0.5
    // a tie is rounded away from zero
    ensures x >= 0.0 ==> x * 10.0 - 0.5 < n as real
    ensures x < 0.0 ==> n as real < x * 10.0 + 0.5
    ensures x >= 0.0 ==> n >= 0
    ensures x < 0.0 ==> n <= 0
  {
    if x >= 0.0 then (x * 10.0 + 0.5).Floor else -((-x * 10.0 + 0.5).Floor)
  }

  /** `Decimal.toFixed(1)`, read back as a number. */
  function RoundToTenth(x: real): (r: real)
    ensures -0.05 <= r - x <= 0.05
    ensures x >= 0.0 ==> -0.05 < r - x
    ensures x < 0.0 ==> r - x < 0.05
    ensures (r * 10.0).Floor as real == r * 10.0
    ensures x >= 0.0 ==> r >= 0.0
    ensures x < 0.0 ==> r <= 0.0
  {
    var n := Tenths(x);
    assert (n as real / 10.0) * 10.0 == n as real;
    n as real / 10.0
  }

  function Clamp(x: real): (r: real)
    ensures 0.0 <= r <= 100.0
    ensures 0.0 <= x <= 100.0 ==> r == x
    ensures x <= 0.0 ==> r == 0.0
    ensures 100.0 <= x ==> r == 100.0
  {
    if x < 0.0 then 0.0 else if x > 100.0 then 100.0 else x
  }

  /** The percentage before rounding and clamping. */
  function RawPercentage(hours: real, elapsedTime: real, initialWorkProgress: real): real
    requires hours > 0.0
  {
    initialWorkProgress + elapsedTime / (hours * 3600.0) * 100.0
  }

  /** getProgressPercentage. A missing or non-positive shift length gives 0; otherwise the
      result has at most one decimal place and lies in (c - 0.05, c + 0.05], where c is the raw
      percentage clamped to [0, 100]: the one tenth nearest c, with a tie going up. */
  function ProgressPercentage(calculatedWorkHours: Option<real>, elapsedTime: real, initialWorkProgress: real): (r: real)
    ensures 0.0 <= r <= 100.0
    ensures (r * 10.0).Floor as real == r * 10.0
    ensures calculatedWorkHours.None? || calculatedWorkHours.value <= 0.0 ==> r == 0.0
    ensures calculatedWorkHours.Some? && calculatedWorkHours.value > 0.0 ==>
              -0.05 < r - Clamp(RawPercentage(calculatedWorkHours.value, elapsedTime, initialWorkProgress)) <= 0.05
  {
    match calculatedWorkHours
    case None => 0.0
    case Some(hours) =>
      if hours <= 0.0 then 0.0
      else
        Clamp(RoundToTenth(RawPercentage(hours, elapsedTime, initialWorkProgress)))
  }

  lemma RoundToTenthMonotone(x: real, y: real)
    requires x <= y
    ensures RoundToTenth(x) <= RoundToTenth(y)
  {
    if x >= 0.0 {
      assert (x * 10.0 + 0.5).Floor <= (y * 10.0 + 0.5).Floor;
    } else if y < 0.0 {
      assert (-y * 10.0 + 0.5).Floor <= (-x * 10.0 + 0.5).Floor;
    }
    assert Tenths(x) <= Tenths(y);
  }

  /** More elapsed time never shows less progress. */
  lemma ProgressMonotone(hours: real, e1: real, e2: real, initialWorkProgress: real)
    requires hours > 0.0 && e1 <= e2
    ensures ProgressPercentage(Some(hours), e1, initialWorkProgress) <= ProgressPercentage(Some(hours), e2, initialWorkProgress)
  {
    assert e1 / (hours * 3600.0) <= e2 / (hours * 3600.0);
    RoundToTenthMonotone(RawPercentage(hours, e1, initialWorkProgress), RawPercentage(hours, e2, initialWorkProgress));
  }

}

=== FILE: scenarios.dfy ===
/**
 Worked examples: particular shifts, clock readings and ticks, with the outcome the
 model gives for each. Several of them pin down behaviour a reader of the timer might not
 expect (see README).
 */
module Scenarios {

  import opened Optional
  import opened Clock
  import opened WorkStatus
  import opened Countdown
  import opened Progress
  import opened Text
  import opened TimeFormat
  import opened Timer

  /** A night shift from 22:00 to 06:00: working at 23:00 and at 02:00, one and four hours in,
      and before work (not after work) at 10:00. */
  lemma NightShift(rate: real)
    ensures var s := Schedule(22.0, 6.0, rate);
      && Classify(s, 23.0).workStatus == Working
      && Classify(s, 23.0).currentEarnings == rate
      && Classify(s, 23.0).initialWorkedSeconds == 3600
      && Classify(s, 2.0).workStatus == Working
      && Classify(s, 2.0).currentEarnings == rate * 4.0
      && Classify(s, 2.0).initialWorkProgress == 50.0
      && Classify(s, 10.0).workStatus == BeforeWork
      && Classify(s, 10.0).currentEarnings == 0.0
      && Classify(s, 10.0).totalExpectedEarnings == rate * 8.0
  {
  }

  /** The default day shift, 9:00 to 18:00: nothing earned at 9:00, the full nine hours from
      18:00 on, and half way at 13:30. */
  lemma DefaultDayShift(rate: real)
    ensures var s := Schedule(9.0, 18.0, rate);
      && Classify(s, 9.0).workStatus == Working
      && Classify(s, 9.0).currentEarnings == 0.0
      && Classify(s, 13.5).initialWorkProgress == 50.0
      && Classify(s, 18.0).workStatus == AfterWork
      && Classify(s, 18.0).currentEarnings == rate * 9.0
      && Classify(s, 18.0).initialWorkedSeconds == 32400
      && Classify(s, 8.0).workStatus == BeforeWork
  {
  }

  lemma Milestones()
    ensures MilestoneFor(100) == Milestone(Large, 50)
    ensures MilestoneFor(200) == Milestone(Large, 50)
    ensures MilestoneFor(50) == Milestone(Medium, 30)
    ensures MilestoneFor(41) == Milestone(Small, 20)
  {
  }

  /** formatTime pads each field to two digits and drops the fraction of a second. */
  lemma FormattedTimes()
    ensures FormatTime(3661.0) == "01:01:01"
    ensures FormatTime(59.9) == "00:00:59"
    ensures FormatTime(0.0) == "00:00:00"
  {
    assert NatToString(1) == "1";
    assert NatToString(59) == NatToString(5) + [DigitChar(9)];
    assert Split(3661) == Fields(1, 1, 1);
    assert Split(59) == Fields(0, 0, 59);
    assert Split(0) == Fields(0, 0, 0);
  }

  /** From 100 hours on the hour field grows past two digits. */
  lemma FormattedHundredHours()
    ensures FormatTime(360000.0) == "100:00:00"
  {
    assert NatToString(10) == NatToString(1) + [DigitChar(0)];
    assert NatToString(100) == NatToString(10) + [DigitChar(0)];
    assert Split(360000) == Fields(100, 0, 0);
  }

  /** A negative input prints its negative fields as they come, which the reader rejects. */
  lemma FormattedNegative()
    ensures FormatTime(-1.0) == "-1:-1:-1"
    ensures ParseClock(FormatTime(-1.0)) == None
  {
    assert Split(-1) == Fields(-1, -1, -1);
    assert IntToString(-1) == "-1";
    assert FormatTime(-1.0) == Join("-1", "-1", "-1");
    JoinSlices("-1", "-1", "-1");
  }

  /** Countdowns: 25200 seconds from 23:00 to the end of a night shift at 06:00, and 1785 seconds
      from 17:30:15 to the end of a day shift at 18:00. */
  lemma Countdowns(rate: real)
    ensures TimeUntilEnd(Working, Schedule(22.0, 6.0, rate), WallClock(23, 0, 0)) == 25200
    ensures TimeUntilEnd(Working, Schedule(9.0, 18.0, rate), WallClock(17, 30, 15)) == 1785
    ensures TimeUntilEnd(AfterWork, Schedule(9.0, 18.0, rate), WallClock(17, 30, 15)) == 0
  {
    assert EndSecond(6.0) == 21600;
    assert EndSecond(18.0) == 64800;
  }

  /** Progress half way through the default shift, and the 0 that getTimerState always reports. */
  lemma Percentages(d: TimerData)
    ensures ProgressPercentage(Some(9.0), 1620.0, 50.0) == 55.0
    ensures ProgressPercentage(Some(9.0), 0.0, 120.0) == 100.0
    ensures ProgressPercentage(None, 1620.0, 50.0) == 0.0
    ensures GetTimerState(d).progressPercentage == 0.0
    // 16.2 seconds into a nine-hour shift is exactly 0.05%, a tie, which rounds up
    ensures ProgressPercentage(Some(9.0), 16.2, 0.0) == 0.1
  {
    assert RawPercentage(9.0, 1620.0, 50.0) == 55.0;
    assert Tenths(55.0) == 550;
    assert Tenths(120.0) == 1200;
    assert RawPercentage(9.0, 16.2, 0.0) == 0.05;
    assert Tenths(0.05) == 1;
  }

  /** A tick that takes the earnings from 8.5 to 12.3 crosses 10 without a medium celebration:
      only the whole part reached, 12, is celebrated, with small confetti. */
  lemma SkippedMilestone()
    ensures var d := TimerData(true, Some(0), Some(0), 0.0, 0, 8.5, 100.0, 8, Working, 0.0, 0);
      var r := Tick(d, Config(Schedule(9.0, 18.0, 13680.0), 3.8), 1000);
      && r.data.currentEarnings == 12.3
      && r.milestone == Some(Milestone(Small, 20))
      && r.data.lastCoinMilestone == 12
  {
    assert (12.3).Floor == 12;
  }

  /** A session that was working when started keeps accruing after the shift is over: one
      second past the full total, the earnings exceed the total expected. */
  lemma EarningsOvershoot()
    ensures var d := TimerData(true, Some(0), Some(0), 32400.0, 0, 90.0, 90.0, 90, Working, 0.0, 0);
      var r := Tick(d, Config(Schedule(9.0, 18.0, 10.0), 0.0025), 1000);
      && r.data.workStatus == Working
      && r.data.currentEarnings > r.data.totalExpectedEarnings
  {
  }

}

=== FILE: text.dfy ===
/**
 Decimal digit strings as JavaScript renders integers: `Number.prototype.toString()`
 and `String.prototype.padStart(n, '0')`, together with a reader for digit strings,
 so that every rendering can be checked by a round trip.
 */
module Text {

  import opened Optional

  predicate IsDigit(c: char) {
    '0' <= c <= '9'
  }

  function DigitChar(d: int): (c: char)
    requires 0 <= d < 10
    ensures IsDigit(c)
  {
    ('0' as int + d) as char
  }

  function DigitValue(c: char): (d: nat)
    requires IsDigit(c)
    ensures d < 10
  {
    (c as int) - ('0' as int)
  }

  /** The number a string of decimal digits denotes, most significant digit first; None as soon
      as a character is not a digit. The empty string denotes 0. */
  function ReadDigits(s: string): Option<nat> {
    if |s| == 0 then Some(0)
    else if !IsDigit(s[|s| - 1]) then None
    else match ReadDigits(s[..|s| - 1])
      case None => None
      case Some(v) => Some(v * 10 + DigitValue(s[|s| - 1]))
  }

  /** `n.toString()` for a non-negative integer: its digits, without leading zeros. */
  function NatToString(n: nat): (s: string)
    ensures 1 <= |s|
    ensures |s| == 1 <==> n < 10
    ensures 1 < |s| ==> s[0] != '0'
  {
    if n < 10 then [DigitChar(n)] else NatToString(n / 10) + [DigitChar(n % 10)]
  }

  /** `n.toString()` for any integer: a minus sign in front of the digits of a negative number. */
  function IntToString(n: int): (s: string)
    ensures n < 0 ==> |s| >= 2 && s[0] == '-'
    ensures n >= 0 ==> |s| >= 1 && (|s| == 1 <==> n < 10)
  {
    if n < 0 then "-" + NatToString(-n) else NatToString(n)
  }

  /** A rendering reads back as its integer: the digits after the minus sign of a negative
      number denote its magnitude. */
  lemma {:induction false} IntToStringRoundTrip(n: int)
    ensures n < 0 ==> IntToString(n)[0] == '-' && ReadDigits(IntToString(n)[1..]) == Some(-n)
    ensures n >= 0 ==> ReadDigits(IntToString(n)) == Some(n)
  {
    if n < 0 {
      NatToStringRoundTrip(-n);
      assert IntToString(n)[1..] == NatToString(-n);
    } else {
      NatToStringRoundTrip(n);
    }
  }

  /** `k` copies of `c`. */
  function Repeat(c: char, k: nat): (r: string)
    ensures |r| == k
  {
    if k == 0 then [] else Repeat(c, k - 1) + [c]
  }

  /** `s.padStart(width, fill)` with a one-character fill: fills on the left up to `width`,
      and leaves a string that is already long enough alone. */
  function PadStart(s: string, width: nat, fill: char): (r: string)
    ensures |r| == if |s| >= width then |s| else width
  {
    if |s| >= width then s else Repeat(fill, width - |s|) + s
  }

  /** Every character of `Repeat(c, k)` is `c`. */
  lemma {:induction false} RepeatIsConstant(c: char, k: nat)
    ensures forall i :: 0 <= i < k ==> Repeat(c, k)[i] == c
  {
    if k > 0 {
      RepeatIsConstant(c, k - 1);
      assert Repeat(c, k) == Repeat(c, k - 1) + [c];
    }
  }

  /** Padding keeps `s` at the end and puts only fill characters in front of it. */
  lemma PadStartShape(s: string, width: nat, fill: char)
    ensures var r := PadStart(s, width, fill);
      && r[|r| - |s|..] == s
      && forall i :: 0 <= i < |r| - |s| ==> r[i] == fill
  {
    if |s| < width {
      RepeatIsConstant(fill, width - |s|);
    }
  }

  /** Two-digit zero padding, the only padding the source uses. */
  function Pad2(s: string): (r: string)
    ensures |r| == if |s| >= 2 then |s| else 2
  {
    PadStart(s, 2, '0')
  }

  lemma DigitValueOfChar(d: int)
    requires 0 <= d < 10
    ensures DigitValue(DigitChar(d)) == d
  {
  }

  /** Reading a string with one more digit at the end. */
  lemma ReadDigitsSnoc(p: string, c: char)
    requires IsDigit(c)
    ensures ReadDigits(p + [c]) == match ReadDigits(p)
              case None => None
              case Some(v) => Some(v * 10 + DigitValue(c))
  {
    var t := p + [c];
    assert t[..|t| - 1] == p;
  }

  /** Reading back the rendering of a non-negative integer gives that integer. */
  lemma {:induction false} NatToStringRoundTrip(n: nat)
    ensures ReadDigits(NatToString(n)) == Some(n)
    decreases n
  {
    if n < 10 {
      ReadDigitsSnoc([], DigitChar(n));
      assert [] + [DigitChar(n)] == [DigitChar(n)];
      DigitValueOfChar(n);
    } else {
      NatToStringRoundTrip(n / 10);
      ReadDigitsSnoc(NatToString(n / 10), DigitChar(n % 10));
      DigitValueOfChar(n % 10);
    }
  }

  lemma {:induction false} ZerosValue(k: nat)
    ensures ReadDigits(Repeat('0', k)) == Some(0)
  {
    if k > 0 {
      ZerosValue(k - 1);
      ReadDigitsSnoc(Repeat('0', k - 1), '0');
    }
  }

  /** Leading zeros do not change the value of a digit string. */
  lemma {:induction false} LeadingZerosValue(k: nat, s: string)
    ensures ReadDigits(Repeat('0', k) + s) == ReadDigits(s)
    decreases |s|
  {
    var z := Repeat('0', k);
    if |s| == 0 {
      assert z + s == z;
      ZerosValue(k);
    } else {
      var t := z + s;
      assert t[..|t| - 1] == z + s[..|s| - 1];
      assert t[|t| - 1] == s[|s| - 1];
      LeadingZerosValue(k, s[..|s| - 1]);
    }
  }

  /** Reading back a zero-padded rendering of `n` gives `n`. */
  lemma PaddedRoundTrip(n: nat, width: nat)
    ensures ReadDigits(PadStart(NatToString(n), width, '0')) == Some(n)
  {
    var s := NatToString(n);
    NatToStringRoundTrip(n);
    if |s| < width {
      LeadingZerosValue(width - |s|, s);
    }
  }

}

=== FILE: timer.dfy ===
/**
 The timer (`TimerManager`): the state a session keeps, how starting and stopping
 change it, and the accrual tick the interval runs every 200 ms. The interval
 itself is not modelled: a tick is a state transformer, and a run of ticks is a
 fold over the timestamps at which they fire.
 */
module Timer {

  import opened Optional
  import opened Clock
  import opened WorkStatus
  import opened Countdown
  import opened Progress

  /** `TimerManager.data`, without the interval handle and the display counter. Timestamps are
      epoch milliseconds. */
  datatype TimerData = TimerData(
    isRunning: bool,
    timerStartTime: Option<int>,
    currentTime: Option<int>,
    elapsedTime: real,
    systemTime: int,
    currentEarnings: real,
    totalExpectedEarnings: real,
    lastCoinMilestone: int,
    workStatus: Status,
    initialWorkProgress: real,
    initialWorkedSeconds: int)

  /** The configuration the timer is started with. `perSecondRate` is supplied by the caller
      alongside the hourly rate, not derived from it here. */
  datatype Config = Config(schedule: Schedule, perSecondRate: real)

  /** The caller's per-second rate agrees with its hourly rate. */
  predicate ConsistentRate(cfg: Config) {
    cfg.perSecondRate * 3600.0 == cfg.schedule.hourlyRate
  }

  /** The state before the first start; `systemTime` is the clock when the module loaded. */
  function InitialData(loadTime: int): (d: TimerData)
    ensures !d.isRunning && d.workStatus == Unset
    ensures d.currentTime.None? && d.timerStartTime.None?
    ensures d.elapsedTime == 0.0 && d.currentEarnings == 0.0 && d.lastCoinMilestone == 0
    ensures d.totalExpectedEarnings == 0.0 && d.initialWorkProgress == 0.0 && d.initialWorkedSeconds == 0
    ensures d.systemTime == loadTime
  {
    TimerData(false, None, None, 0.0, loadTime, 0.0, 0.0, 0, Unset, 0.0, 0)
  }

  // ---------------------------------------------------------------------------
  // Starting and stopping

  /** The `initialState` startTimer hands back. */
  datatype InitialState = InitialState(
    workStatus: Status,
    initialWorkProgress: real,
    initialWorkedSeconds: int,
    currentEarnings: real,
    totalExpectedEarnings: real,
    elapsedTime: real)

  datatype Started = Started(data: TimerData, isRunning: bool, initialState: InitialState)

  /** Writes a classification into the timer, leaving every other field alone. */
  function Apply(d: TimerData, k: Classification): TimerData {
    d.(workStatus := k.workStatus,
       initialWorkProgress := k.initialWorkProgress,
       initialWorkedSeconds := k.initialWorkedSeconds,
       currentEarnings := k.currentEarnings,
       lastCoinMilestone := k.lastCoinMilestone,
       totalExpectedEarnings := k.totalExpectedEarnings)
  }

  /** startTimer at epoch time `now`, classifying at the hour and minute of `clock`. The
      session restarts from nothing: elapsed time 0, the time anchor at the start time, and
      every derived field taken from classification. */
  function StartTimer(d: TimerData, cfg: Config, now: int, clock: WallClock): (r: Started)
    requires clock.Valid()
    requires ProgressDefined(cfg.schedule, DecimalHours(clock.hour, clock.minute))
    ensures r.data.isRunning && r.isRunning
    ensures r.data.elapsedTime == 0.0
    ensures r.data.timerStartTime == Some(now) && r.data.currentTime == r.data.timerStartTime
    ensures r.data.systemTime == d.systemTime
    ensures var k := Classify(cfg.schedule, DecimalHours(clock.hour, clock.minute));
      && r.data.workStatus == k.workStatus
      && r.data.currentEarnings == k.currentEarnings
      && r.data.lastCoinMilestone == r.data.currentEarnings.Floor
      && r.data.totalExpectedEarnings == k.totalExpectedEarnings
      && r.data.initialWorkProgress == k.initialWorkProgress
      && r.data.initialWorkedSeconds == k.initialWorkedSeconds
    // the returned initial state reports the started timer
    ensures r.initialState.workStatus == r.data.workStatus
    ensures r.initialState.initialWorkProgress == r.data.initialWorkProgress
    ensures r.initialState.initialWorkedSeconds == r.data.initialWorkedSeconds
    ensures r.initialState.currentEarnings == r.data.currentEarnings
    ensures r.initialState.totalExpectedEarnings == r.data.totalExpectedEarnings
    ensures r.initialState.elapsedTime == 0.0
  {
    var restarted := d.(timerStartTime := Some(now), currentTime := Some(now), elapsedTime := 0.0, isRunning := true);
    var data := Apply(restarted, ClassifyAt(cfg.schedule, clock));
    Started(data, data.isRunning,
            InitialState(data.workStatus, data.initialWorkProgress, data.initialWorkedSeconds,
                         data.currentEarnings, data.totalExpectedEarnings, data.elapsedTime))
  }

  /** stopTimer: the session is no longer running, and nothing else about it changes. */
  function StopTimer(d: TimerData): (r: TimerData)
    ensures !r.isRunning
    ensures r.(isRunning := d.isRunning) == d
  {
    d.(isRunning := false)
  }

  // ---------------------------------------------------------------------------
  // Milestones

  datatype Size = Small | Medium | Large

  /** The celebration a milestone asks for: confetti of a size and a number of dropping coins. */
  datatype Milestone = Milestone(size: Size, coins: nat)

  /** The celebration for reaching a whole amount: hundreds are large, other tens medium,
      everything else small. */
  function MilestoneFor(whole: int): (m: Milestone)
    ensures m.size == Large <==> whole % 100 == 0
    ensures m.size == Medium <==> whole % 10 == 0 && whole % 100 != 0
    ensures m.size == Small <==> whole % 10 != 0
    ensures m.coins == (match m.size case Large => 50 case Medium => 30 case Small => 20)
  {
    if whole % 100 == 0 then Milestone(Large, 50)
    else if whole % 10 == 0 then Milestone(Medium, 30)
    else Milestone(Small, 20)
  }

  // ---------------------------------------------------------------------------
  // The tick

  /** Seconds between the time anchor and `now`. */
  function Delta(d: TimerData, now: int): (r: real)
    requires d.currentTime.Some?
    ensures r * 1000.0 == (now - d.currentTime.value) as real
    ensures d.currentTime.value <= now ==> 0.0 <= r
  {
    (now - d.currentTime.value) as real / 1000.0
  }

  datatype TickStep = TickStep(data: TimerData, milestone: Option<Milestone>)

  /** updateTimer's effect on the timer at epoch time `now`. Elapsed time and earnings grow by
      the time since the last anchor only while the stored status is working; the stored status
      itself is never revisited. A milestone fires exactly when the whole part of the earnings
      passes the last one celebrated, and then becomes the new last one. */
  function Tick(d: TimerData, cfg: Config, now: int): (r: TickStep)
    requires d.currentTime.Some?
    ensures r.data.currentTime == Some(now) && r.data.systemTime == now
    ensures r.data.workStatus == d.workStatus
    ensures d.workStatus == Working ==>
              && r.data.elapsedTime == d.elapsedTime + Delta(d, now)
              && r.data.currentEarnings == d.currentEarnings + cfg.perSecondRate * Delta(d, now)
    ensures d.workStatus != Working ==>
              r.data.elapsedTime == d.elapsedTime && r.data.currentEarnings == d.currentEarnings
    ensures r.milestone.Some? <==> r.data.currentEarnings.Floor > d.lastCoinMilestone
    ensures r.milestone.Some? ==>
              && r.data.lastCoinMilestone == r.data.currentEarnings.Floor
              && r.milestone.value == MilestoneFor(r.data.lastCoinMilestone)
    ensures r.milestone.None? ==> r.data.lastCoinMilestone == d.lastCoinMilestone
    ensures d.lastCoinMilestone <= r.data.lastCoinMilestone
    // nothing else changes
    ensures r.data.(currentTime := d.currentTime, systemTime := d.systemTime,
                    elapsedTime := d.elapsedTime, currentEarnings := d.currentEarnings,
                    lastCoinMilestone := d.lastCoinMilestone) == d
  {
    var delta := Delta(d, now);
    var elapsed := if d.workStatus == Working then d.elapsedTime + delta else d.elapsedTime;
    var earnings := if d.workStatus == Working then d.currentEarnings + cfg.perSecondRate * delta
                    else d.currentEarnings;
    var whole := earnings.Floor;
    var moved := d.(systemTime := now, currentTime := Some(now), elapsedTime := elapsed,
                    currentEarnings := earnings);
    if whole > d.lastCoinMilestone then
      TickStep(moved.(lastCoinMilestone := whole), Some(MilestoneFor(whole)))
    else
      TickStep(moved, None)
  }

  /** What updateTimer passes to `onUpdate`. */
  datatype Snapshot = Snapshot(
    elapsedTime: real,
    currentEarnings: real,
    systemTime: int,
    workStatus: Status,
    initialWorkedSeconds: int,
    totalExpectedEarnings: real,
    timeUntilEnd: int)

  datatype Update = Update(data: TimerData, milestone: Option<Milestone>, snapshot: Snapshot)

  /** updateTimer: the tick, followed by the snapshot of the ticked state, whose countdown is
      read from `clock` with the stored status. */
  function UpdateTimer(d: TimerData, cfg: Config, now: int, clock: WallClock): (r: Update)
    requires d.currentTime.Some?
    ensures r.data == Tick(d, cfg, now).data && r.milestone == Tick(d, cfg, now).milestone
    ensures r.snapshot.elapsedTime == r.data.elapsedTime
    ensures r.snapshot.currentEarnings == r.data.currentEarnings
    ensures r.snapshot.workStatus == d.workStatus
    ensures r.snapshot.systemTime == now
    ensures r.snapshot.initialWorkedSeconds == d.initialWorkedSeconds
    ensures r.snapshot.totalExpectedEarnings == d.totalExpectedEarnings
    ensures r.snapshot.timeUntilEnd == TimeUntilEnd(d.workStatus, cfg.schedule, clock)
    ensures d.workStatus == AfterWork ==> r.snapshot.timeUntilEnd == 0
  {
    var step := Tick(d, cfg, now);
    var e := step.data;
    Update(e, step.milestone,
           Snapshot(e.elapsedTime, e.currentEarnings, e.systemTime, e.workStatus,
                    e.initialWorkedSeconds, e.totalExpectedEarnings,
                    TimeUntilEnd(e.workStatus, cfg.schedule, clock)))
  }

  // ---------------------------------------------------------------------------
  // Reading the state

  datatype TimerState = TimerState(
    isRunning: bool,
    elapsedTime: real,
    currentEarnings: real,
    workStatus: Status,
    initialWorkProgress: real,
    initialWorkedSeconds: int,
    totalExpectedEarnings: real,
    progressPercentage: real,
    systemTime: int)

  /** getTimerState. It asks for the progress percentage without a shift length, so the
      percentage it reports is always 0. */
  function GetTimerState(d: TimerData): (r: TimerState)
    ensures r.progressPercentage == 0.0
    ensures r.isRunning == d.isRunning && r.workStatus == d.workStatus
    ensures r.elapsedTime == d.elapsedTime && r.currentEarnings == d.currentEarnings
    ensures r.initialWorkProgress == d.initialWorkProgress && r.initialWorkedSeconds == d.initialWorkedSeconds
    ensures r.totalExpectedEarnings == d.totalExpectedEarnings && r.systemTime == d.systemTime
  {
    TimerState(d.isRunning, d.elapsedTime, d.currentEarnings, d.workStatus, d.initialWorkProgress,
               d.initialWorkedSeconds, d.totalExpectedEarnings,
               ProgressPercentage(None, d.elapsedTime, d.initialWorkProgress), d.systemTime)
  }

  // ---------------------------------------------------------------------------
  // Runs of ticks

  datatype RunResult = RunResult(data: TimerData, milestones: seq<Milestone>)

  /** The ticks an interval fires at the epoch times `times`, in order. Each tick celebrates at
      most once. */
  function Run(d: TimerData, cfg: Config, times: seq<int>): (r: RunResult)
    requires d.currentTime.Some?
    ensures r.data.currentTime.Some?
    ensures |r.milestones| <= |times|
    decreases |times|
  {
    if |times| == 0 then RunResult(d, [])
    else
      var step := Tick(d, cfg, times[0]);
      var rest := Run(step.data, cfg, times[1..]);
      var fired := if step.milestone.Some? then [step.milestone.value] else [];
      RunResult(rest.data, fired + rest.milestones)
  }

  predicate NonDecreasing(times: seq<int>) {
    forall i, j :: 0 <= i < j < |times| ==> times[i] <= times[j]
  }

  // ---------------------------------------------------------------------------
  // Properties of a tick

  /** With time moving forward and a non-negative rate, a tick never takes elapsed time or
      earnings back. */
  lemma TickMonotone(d: TimerData, cfg: Config, now: int)
    requires d.currentTime.Some? && d.currentTime.value <= now
    requires cfg.perSecondRate >= 0.0
    ensures d.elapsedTime <= Tick(d, cfg, now).data.elapsedTime
    ensures d.currentEarnings <= Tick(d, cfg, now).data.currentEarnings
  {
  }

  /** The last milestone never runs ahead of the whole earnings, as long as earnings do not
      go down. */
  lemma TickKeepsMilestoneBehind(d: TimerData, cfg: Config, now: int)
    requires d.currentTime.Some? && d.currentTime.value <= now
    requires cfg.perSecondRate >= 0.0
    requires d.lastCoinMilestone <= d.currentEarnings.Floor
    ensures Tick(d, cfg, now).data.lastCoinMilestone <= Tick(d, cfg, now).data.currentEarnings.Floor
  {
    TickMonotone(d, cfg, now);
  }

  /** Outside working, with no milestone pending, a tick only moves the time anchor and the
      system time: nothing accrues and nothing is celebrated. */
  lemma TickWhileIdle(d: TimerData, cfg: Config, now: int)
    requires d.currentTime.Some?
    requires d.workStatus != Working
    requires d.lastCoinMilestone >= d.currentEarnings.Floor
    ensures Tick(d, cfg, now).milestone.None?
    ensures Tick(d, cfg, now).data == d.(currentTime := Some(now), systemTime := now)
  {
  }

  // ---------------------------------------------------------------------------
  // Properties of runs

  /** However the ticks are spaced, a working session whose last tick fires at `last` accrues
      exactly the time between its anchor and `last`, and the rate times that time: no tick loses
      or adds anything. */
  lemma RunAccruesExactly(d: TimerData, cfg: Config, times: seq<int>, last: int)
    requires d.currentTime.Some? && d.workStatus == Working
    requires |times| > 0 && last == times[|times| - 1]
    ensures var span := (last - d.currentTime.value) as real / 1000.0;
      && Run(d, cfg, times).data.elapsedTime == d.elapsedTime + span
      && Run(d, cfg, times).data.currentEarnings == d.currentEarnings + cfg.perSecondRate * span
      && Run(d, cfg, times).data.currentTime == Some(last)
      && Run(d, cfg, times).data.workStatus == Working
  {
    var e := Run(d, cfg, times).data;
    RunElapsed(d, cfg, times);
    RunKeepsBaseline(d, cfg, times);
    RunKeepsStatus(d, cfg, times);
    EarningsFromBaseline(d, cfg, last, e);
  }

  /** With a per-second rate that agrees with the hourly rate, a working run earns the hourly
      rate for every hour between its anchor and its last tick. */
  lemma RunEarnsHourlyRate(d: TimerData, cfg: Config, times: seq<int>, last: int)
    requires d.currentTime.Some? && d.workStatus == Working
    requires |times| > 0 && last == times[|times| - 1]
    requires ConsistentRate(cfg)
    ensures Run(d, cfg, times).data.currentEarnings
              == d.currentEarnings + cfg.schedule.hourlyRate * ((last - d.currentTime.value) as real / 3600000.0)
  {
    RunAccruesExactly(d, cfg, times, last);
    EarningsAtHourlyRate(d, cfg, last, Run(d, cfg, times).data);
  }

  lemma EarningsAtHourlyRate(d: TimerData, cfg: Config, last: int, e: TimerData)
    requires d.currentTime.Some? && ConsistentRate(cfg)
    requires e.currentEarnings == d.currentEarnings + cfg.perSecondRate * ((last - d.currentTime.value) as real / 1000.0)
    ensures e.currentEarnings == d.currentEarnings + cfg.schedule.hourlyRate * ((last - d.currentTime.value) as real / 3600000.0)
  {
    HourlyFromPerSecond(d.currentEarnings, e.currentEarnings, cfg.perSecondRate, cfg.schedule.hourlyRate,
                        (last - d.currentTime.value) as real);
  }

  /** Earnings at a per-second rate over a span of milliseconds are the same earnings at the
      matching hourly rate over that span in hours. */
  lemma HourlyFromPerSecond(e0: real, e1: real, k: real, h: real, ms: real)
    requires k * 3600.0 == h
    requires e1 == e0 + k * (ms / 1000.0)
    ensures e1 == e0 + h * (ms / 3600000.0)
  {
    assert h * (ms / 3600000.0) == k * 3600.0 * (ms / 3600000.0);
  }

  /** A state with the same baseline as `d` and elapsed time grown by the span up to `last` has
      earned the rate times that span. */
  lemma EarningsFromBaseline(d: TimerData, cfg: Config, last: int, e: TimerData)
    requires d.currentTime.Some?
    requires e.elapsedTime == d.elapsedTime + (last - d.currentTime.value) as real / 1000.0
    requires Baseline(e, cfg) == Baseline(d, cfg)
    ensures e.currentEarnings == d.currentEarnings + cfg.perSecondRate * ((last - d.currentTime.value) as real / 1000.0)
  {
    Rebase(d.currentEarnings, d.elapsedTime, e.currentEarnings, e.elapsedTime, cfg.perSecondRate,
           (last - d.currentTime.value) as real / 1000.0);
  }

  /** Same baseline and `span` more elapsed time means the rate times `span` more earnings. */
  lemma Rebase(e0: real, l0: real, e1: real, l1: real, k: real, span: real)
    requires e1 - k * l1 == e0 - k * l0 && l1 == l0 + span
    ensures e1 == e0 + k * span
  {
    Distribute(k, l0, span);
  }

  lemma Distribute(k: real, a: real, b: real)
    ensures k * a + k * b == k * (a + b)
  {
  }

  /** The elapsed time a working run ends with, and the anchor it leaves. */
  lemma {:induction false} RunElapsed(d: TimerData, cfg: Config, times: seq<int>)
    requires d.currentTime.Some? && d.workStatus == Working
    requires |times| > 0
    ensures Run(d, cfg, times).data.elapsedTime
              == d.elapsedTime + (times[|times| - 1] - d.currentTime.value) as real / 1000.0
    ensures Run(d, cfg, times).data.currentTime == Some(times[|times| - 1])
    decreases |times|
  {
    var next := Tick(d, cfg, times[0]).data;
    RunUnfold(d, cfg, times);
    if |times| > 1 {
      RunElapsed(next, cfg, times[1..]);
      assert times[1..][|times| - 2] == times[|times| - 1];
    }
  }

  /** Earnings less the rate times the elapsed time: what the session had before any of its
      ticks accrued. */
  function Baseline(e: TimerData, cfg: Config): real {
    e.currentEarnings - cfg.perSecondRate * e.elapsedTime
  }

  /** A tick moves earnings and elapsed time in step, so it keeps the baseline. */
  lemma TickKeepsBaseline(d: TimerData, cfg: Config, now: int)
    requires d.currentTime.Some?
    ensures Baseline(Tick(d, cfg, now).data, cfg) == Baseline(d, cfg)
  {
    if d.workStatus == Working {
      Distribute(cfg.perSecondRate, d.elapsedTime, Delta(d, now));
    }
  }

  lemma {:induction false} RunKeepsBaseline(d: TimerData, cfg: Config, times: seq<int>)
    requires d.currentTime.Some?
    ensures Baseline(Run(d, cfg, times).data, cfg) == Baseline(d, cfg)
    decreases |times|
  {
    if |times| > 0 {
      TickKeepsBaseline(d, cfg, times[0]);
      RunKeepsBaseline(Tick(d, cfg, times[0]).data, cfg, times[1..]);
      RunUnfold(d, cfg, times);
    }
  }

  /** One tick, then the rest of the run. */
  lemma RunUnfold(d: TimerData, cfg: Config, times: seq<int>)
    requires d.currentTime.Some? && |times| > 0
    ensures Run(d, cfg, times).data == Run(Tick(d, cfg, times[0]).data, cfg, times[1..]).data
  {
  }

  /** A run leaves the stored status as it found it. */
  lemma {:induction false} RunKeepsStatus(d: TimerData, cfg: Config, times: seq<int>)
    requires d.currentTime.Some?
    ensures Run(d, cfg, times).data.workStatus == d.workStatus
    ensures d.workStatus != Working ==>
              && Run(d, cfg, times).data.elapsedTime == d.elapsedTime
              && Run(d, cfg, times).data.currentEarnings == d.currentEarnings
    decreases |times|
  {
    if |times| > 0 {
      RunKeepsStatus(Tick(d, cfg, times[0]).data, cfg, times[1..]);
    }
  }

  /** Each milestone of a run raises the last milestone by at least one whole unit, so a run
      celebrates at most as many times as the whole units it gains. */
  lemma {:induction false} RunMilestonesBounded(d: TimerData, cfg: Config, times: seq<int>)
    requires d.currentTime.Some?
    ensures d.lastCoinMilestone <= Run(d, cfg, times).data.lastCoinMilestone
    ensures |Run(d, cfg, times).milestones| <= Run(d, cfg, times).data.lastCoinMilestone - d.lastCoinMilestone
    decreases |times|
  {
    if |times| > 0 {
      RunMilestonesBounded(Tick(d, cfg, times[0]).data, cfg, times[1..]);
    }
  }

  /** With ticks in time order from the anchor on and a non-negative rate, earnings never go
      down over a run and the last milestone stays at or below the whole earnings. */
  lemma {:induction false} RunMonotone(d: TimerData, cfg: Config, times: seq<int>)
    requires d.currentTime.Some?
    requires NonDecreasing(times)
    requires |times| > 0 ==> d.currentTime.value <= times[0]
    requires cfg.perSecondRate >= 0.0
    requires d.lastCoinMilestone <= d.currentEarnings.Floor
    ensures d.elapsedTime <= Run(d, cfg, times).data.elapsedTime
    ensures d.currentEarnings <= Run(d, cfg, times).data.currentEarnings
    ensures Run(d, cfg, times).data.lastCoinMilestone <= Run(d, cfg, times).data.currentEarnings.Floor
    decreases |times|
  {
    if |times| > 0 {
      var step := Tick(d, cfg, times[0]);
      TickMonotone(d, cfg, times[0]);
      TickKeepsMilestoneBehind(d, cfg, times[0]);
      assert NonDecreasing(times[1..]);
      RunMonotone(step.data, cfg, times[1..]);
    }
  }

  // ---------------------------------------------------------------------------
  // Properties of starting and stopping

  /** Starting forgets the previous session: two timers started with the same configuration at
      the same moment agree on everything but `systemTime`, which starting leaves alone. */
  lemma StartForgetsPast(d1: TimerData, d2: TimerData, cfg: Config, now: int, clock: WallClock)
    requires clock.Valid()
    requires ProgressDefined(cfg.schedule, DecimalHours(clock.hour, clock.minute))
    ensures StartTimer(d1, cfg, now, clock).data.(systemTime := d2.systemTime) == StartTimer(d2, cfg, now, clock).data
  {
  }

  /** Stopping twice is stopping once, and stopping does not disturb a later start. */
  lemma StopThenStart(d: TimerData, cfg: Config, now: int, clock: WallClock)
    requires clock.Valid()
    requires ProgressDefined(cfg.schedule, DecimalHours(clock.hour, clock.minute))
    ensures StopTimer(StopTimer(d)) == StopTimer(d)
    ensures StartTimer(StopTimer(d), cfg, now, clock) == StartTimer(d, cfg, now, clock)
  {
  }

  /** Right after a start with a non-negative rate and a shift between two times of day, the
      earnings lie between 0 and the expected total, and the last milestone equals their whole
      part. */
  lemma StartBounds(d: TimerData, cfg: Config, now: int, clock: WallClock)
    requires clock.Valid()
    requires TimesOfDay(cfg.schedule) && cfg.schedule.hourlyRate >= 0.0
    ensures ProgressDefined(cfg.schedule, DecimalHours(clock.hour, clock.minute))
    ensures var e := StartTimer(d, cfg, now, clock).data;
      && 0.0 <= e.currentEarnings <= e.totalExpectedEarnings
      && 0.0 <= e.initialWorkProgress <= 100.0
      && e.lastCoinMilestone == e.currentEarnings.Floor
  {
    ClassifyBounds(cfg.schedule, DecimalHours(clock.hour, clock.minute));
  }

}

=== FILE: work_status.dfy ===
/**
 The work-status classifier (`calculateWorkStatus`): given a shift and the time
 of day, decide whether the user is before work, working or after work, and
 derive the progress, worked seconds and earnings at that moment.
 */
module WorkStatus {

  import opened Clock

  /** `workStatus`; `Unset` is the empty string the timer holds before its first start. */
  datatype Status = Unset | BeforeWork | Working | AfterWork

  /** The part of the timer configuration the classifier reads: decimal hours and a rate per hour. */
  datatype Schedule = Schedule(startTime: real, endTime: real, hourlyRate: real)

  /** A shift that ends earlier in the day than it starts runs past midnight. */
  predicate IsOvernight(s: Schedule) {
    s.endTime < s.startTime
  }

  /** Both ends of the shift are times of day. Nothing in the source enforces this. */
  predicate TimesOfDay(s: Schedule) {
    0.0 <= s.startTime < 24.0 && 0.0 <= s.endTime < 24.0
  }

  /** The length of the shift in hours (`calculatedWorkHoursValue`). */
  function ShiftHours(s: Schedule): (h: real)
    ensures TimesOfDay(s) ==> h == DialDistance(s.startTime, s.endTime)
    ensures TimesOfDay(s) && IsOvernight(s) ==> 0.0 < h < 24.0
  {
    if IsOvernight(s) then 24.0 - s.startTime + s.endTime else s.endTime - s.startTime
  }

  /** The progress ratio divides by the shift length, and only when the classifier reaches a
      working branch. This holds exactly when that division has a non-zero divisor; it fails only
      for an overnight shift whose start lies a full day after its end, which no pair of times of
      day can form. */
  predicate ProgressDefined(s: Schedule, c: real) {
    IsOvernight(s) && (c >= s.startTime || c < s.endTime) ==> ShiftHours(s) != 0.0
  }

  /** What classification writes into the timer and returns. */
  datatype Classification = Classification(
    workStatus: Status,
    initialWorkProgress: real,
    initialWorkedSeconds: int,
    currentEarnings: real,
    lastCoinMilestone: int,
    totalExpectedEarnings: real)

  /** The fields every branch ends with: the coin milestone starts at the whole part of the
      earnings so far, and the expected total is the rate times the shift length. */
  function Settle(s: Schedule, status: Status, progress: real, seconds: int, earnings: real): (k: Classification)
    ensures k.lastCoinMilestone == earnings.Floor
    ensures k.lastCoinMilestone as real <= k.currentEarnings < k.lastCoinMilestone as real + 1.0
  {
    Classification(status, progress, seconds, earnings, earnings.Floor, s.hourlyRate * ShiftHours(s))
  }

  /** A working branch, `worked` hours into the shift. */
  function WorkingFor(s: Schedule, worked: real): Classification
    requires ShiftHours(s) != 0.0
  {
    Settle(s, Working, worked / ShiftHours(s) * 100.0, (worked * 3600.0).Floor, s.hourlyRate * worked)
  }

  function NotYetWorking(s: Schedule): Classification {
    Settle(s, BeforeWork, 0.0, 0, 0.0)
  }

  function FinishedWork(s: Schedule): Classification {
    Settle(s, AfterWork, 100.0, (ShiftHours(s) * 3600.0).Floor, s.hourlyRate * ShiftHours(s))
  }

  /** calculateWorkStatus at decimal time of day `c`. */
  function Classify(s: Schedule, c: real): (r: Classification)
    requires ProgressDefined(s, c)
    ensures r.workStatus != Unset
    ensures r.lastCoinMilestone == r.currentEarnings.Floor
    ensures r.totalExpectedEarnings == s.hourlyRate * ShiftHours(s)
    // a day shift: working on [start, end), before work until start, after work from end on
    ensures !IsOvernight(s) ==> (r.workStatus == Working <==> s.startTime <= c < s.endTime)
    ensures !IsOvernight(s) ==> (r.workStatus == BeforeWork <==> c < s.startTime)
    ensures !IsOvernight(s) ==> (r.workStatus == AfterWork <==> s.startTime <= c && s.endTime <= c)
    // an overnight shift: working from start to midnight and from midnight to end, otherwise
    // always before work
    ensures IsOvernight(s) ==> (r.workStatus == Working <==> (s.startTime <= c || c < s.endTime))
    ensures IsOvernight(s) ==> r.workStatus != AfterWork
    ensures r.workStatus == BeforeWork ==>
              r.initialWorkProgress == 0.0 && r.initialWorkedSeconds == 0 && r.currentEarnings == 0.0
    ensures r.workStatus == AfterWork ==>
              && r.initialWorkProgress == 100.0
              && r.currentEarnings == r.totalExpectedEarnings
              && r.initialWorkedSeconds == (ShiftHours(s) * 3600.0).Floor
  {
    if IsOvernight(s) then
      if c >= s.startTime || c < s.endTime then
        var worked := if c >= s.startTime then c - s.startTime else 24.0 - s.startTime + c;
        WorkingFor(s, worked)
      else if c < s.startTime && c >= s.endTime then
        NotYetWorking(s)
      else
        FinishedWork(s)
    else
      if c >= s.startTime && c < s.endTime then
        WorkingFor(s, c - s.startTime)
      else if c < s.startTime then
        NotYetWorking(s)
      else
        FinishedWork(s)
  }

  /** calculateWorkStatus as the timer calls it, at the hour and minute of the clock. */
  function ClassifyAt(s: Schedule, c: WallClock): (r: Classification)
    requires c.Valid()
    requires ProgressDefined(s, DecimalHours(c.hour, c.minute))
    ensures r.workStatus != Unset
    ensures r.totalExpectedEarnings == s.hourlyRate * ShiftHours(s)
    // a day shift: working exactly from the start minute up to, not including, the end minute
    ensures !IsOvernight(s) ==>
              (r.workStatus == Working <==> s.startTime * 60.0 <= (c.hour * 60 + c.minute) as real < s.endTime * 60.0)
  {
    Classify(s, DecimalHours(c.hour, c.minute))
  }

  /** For a shift between two times of day the divisor is never zero. */
  lemma TimesOfDayProgressDefined(s: Schedule, c: real)
    requires TimesOfDay(s)
    ensures ProgressDefined(s, c)
  {
  }

  /** One rule for both kinds of shift: the shift is the clockwise arc of the dial from its
      start to its end, the user is working exactly while the time lies on that arc, and the
      hours worked are the distance travelled along it. */
  lemma ClassifyFollowsDial(s: Schedule, c: real)
    requires TimesOfDay(s) && 0.0 <= c < 24.0
    ensures ProgressDefined(s, c)
    ensures Classify(s, c).workStatus == Working <==>
              DialDistance(s.startTime, c) < DialDistance(s.startTime, s.endTime)
    ensures Classify(s, c).workStatus == Working ==>
              var worked := DialDistance(s.startTime, c);
              && Classify(s, c).currentEarnings == s.hourlyRate * worked
              && Classify(s, c).initialWorkedSeconds == (worked * 3600.0).Floor
              && Classify(s, c).initialWorkProgress == worked / ShiftHours(s) * 100.0
  {
  }

  lemma ScaleBetween(rate: real, x: real, total: real)
    requires 0.0 <= rate && 0.0 <= x <= total
    ensures 0.0 <= rate * x <= rate * total
  {
  }

  lemma RatioBetween(x: real, total: real)
    requires 0.0 <= x <= total && total != 0.0
    ensures 0.0 <= x / total * 100.0 <= 100.0
  {
    assert x / total <= 1.0;
  }

  /** The working branch, for a shift of non-zero length, a non-negative rate and hours worked
      within the shift: earnings stay in [0, total], progress in [0, 100] and worked seconds
      within the shift. */
  lemma WorkingForBounds(s: Schedule, worked: real)
    requires 0.0 <= worked <= ShiftHours(s) && ShiftHours(s) != 0.0
    requires s.hourlyRate >= 0.0
    ensures 0.0 <= WorkingFor(s, worked).currentEarnings <= WorkingFor(s, worked).totalExpectedEarnings
    ensures 0.0 <= WorkingFor(s, worked).initialWorkProgress <= 100.0
    ensures 0 <= WorkingFor(s, worked).initialWorkedSeconds <= (ShiftHours(s) * 3600.0).Floor
  {
    var total := ShiftHours(s);
    var k := WorkingFor(s, worked);
    assert k.currentEarnings == s.hourlyRate * worked && k.totalExpectedEarnings == s.hourlyRate * total;
    ScaleBetween(s.hourlyRate, worked, total);
    assert k.initialWorkProgress == worked / total * 100.0;
    RatioBetween(worked, total);
    assert k.initialWorkedSeconds == (worked * 3600.0).Floor;
    FloorMonotone(worked * 3600.0, total * 3600.0);
  }

  lemma FloorMonotone(x: real, y: real)
    requires 0.0 <= x <= y
    ensures 0 <= x.Floor <= y.Floor
  {
  }

  lemma FinishedWorkBounds(s: Schedule)
    requires 0.0 <= ShiftHours(s)
    requires s.hourlyRate >= 0.0
    ensures 0.0 <= FinishedWork(s).currentEarnings <= FinishedWork(s).totalExpectedEarnings
    ensures 0 <= FinishedWork(s).initialWorkedSeconds <= (ShiftHours(s) * 3600.0).Floor
  {
    ScaleBetween(s.hourlyRate, ShiftHours(s), ShiftHours(s));
  }

  /** With a non-negative rate and a shift between two times of day, classification never
      reports earnings outside [0, total], progress outside [0, 100] or more worked seconds
      than the shift holds. */
  lemma ClassifyBounds(s: Schedule, c: real)
    requires TimesOfDay(s) && 0.0 <= c < 24.0
    requires s.hourlyRate >= 0.0
    ensures ProgressDefined(s, c)
    ensures 0.0 <= Classify(s, c).currentEarnings <= Classify(s, c).totalExpectedEarnings
    ensures 0.0 <= Classify(s, c).initialWorkProgress <= 100.0
    ensures 0 <= Classify(s, c).initialWorkedSeconds <= (ShiftHours(s) * 3600.0).Floor
    ensures 0 <= Classify(s, c).lastCoinMilestone
  {
    var total := ShiftHours(s);
    assert 0.0 <= total;
    if IsOvernight(s) && c >= s.startTime {
      assert Classify(s, c) == WorkingFor(s, c - s.startTime);
      WorkingForBounds(s, c - s.startTime);
    } else if IsOvernight(s) && c < s.endTime {
      assert Classify(s, c) == WorkingFor(s, 24.0 - s.startTime + c);
      WorkingForBounds(s, 24.0 - s.startTime + c);
    } else if !IsOvernight(s) && s.startTime <= c < s.endTime {
      assert Classify(s, c) == WorkingFor(s, c - s.startTime);
      WorkingForBounds(s, c - s.startTime);
    } else if !IsOvernight(s) && s.endTime <= c {
      assert Classify(s, c) == FinishedWork(s);
      FinishedWorkBounds(s);
    }
  }

  /** At the very start of a shift of non-zero length the user is working and has earned nothing. */
  lemma ShiftStartsFromZero(s: Schedule)
    requires s.startTime != s.endTime
    requires ProgressDefined(s, s.startTime)
    ensures Classify(s, s.startTime).workStatus == Working
    ensures Classify(s, s.startTime).currentEarnings == 0.0
    ensures Classify(s, s.startTime).initialWorkedSeconds == 0
    ensures Classify(s, s.startTime).initialWorkProgress == 0.0
    ensures Classify(s, s.startTime).lastCoinMilestone == 0
  {
  }

  /** At the end of a day shift the work is over and the full expected total has been earned. */
  lemma DayShiftEndsWithTotal(s: Schedule)
    requires s.startTime <= s.endTime
    ensures Classify(s, s.endTime).workStatus == AfterWork
    ensures Classify(s, s.endTime).currentEarnings == s.hourlyRate * (s.endTime - s.startTime)
    ensures Classify(s, s.endTime).initialWorkProgress == 100.0
  {
  }

}
